=== FILE: README.md ===
# Panorama viewer: view-state controller, projection and display names

A Dafny model of the core of a browser panorama viewer (`PanoramaViewer` in
`js/panorama-viewer.js`). The viewer shows a flat 360-degree panorama image in
a canvas. The user pans with mouse or touch drags (yaw and pitch), zooms with
the wheel, a two-finger pinch or the zoom buttons (field of view), and switches
between several configured panoramas. Each animation frame crops the image
around the current view and copies one rectangle into the viewport. When the
crop crosses the image's right edge, it copies two rectangles instead.

The model has five modules:

- `Wrappers`: an `Option` type.
- `Numeric`: the clamp `Math.max(lo, Math.min(hi, x))`, floor and truncation
  of reals, and JavaScript's truncating `%` for the modulus 360 (`JsRem360`).
- `Names`: the display name derived from a file name. All underscores become
  spaces. Then the first occurrence of `.png`, of `.jpg` and of `.jpeg` is
  deleted, in that order, because `String.replace` with a string pattern
  replaces only the first match.
- `Projection`: one frame of `render`, as a pure function over exact reals. It
  returns the list of (source rectangle, destination rectangle) pairs that
  `drawImage` would receive.
- `Viewer`: the `PanoramaViewer` class. Its fields are the ones the source
  updates in place (`panoramas`, `currentIndex`, `currentImage`, `yaw`,
  `pitch`, `fov`, `isDragging`, `lastX`, `lastY`, `touches`,
  `lastPinchDistance`) plus `loadingShown` for the loading indicator. Its
  methods are the event handlers. `Valid()` is the object invariant: pitch lies
  in [-90, 90], fov lies in [30, 120], the chosen index is in range and a
  loaded image has a positive size. Every handler preserves it.

Browser events become parameters. A mouse event is its `(clientX, clientY)`.
A touch event is its list of touch points. The asynchronous image decode is
split into a begin step (`LoadPanorama`) and its two completions
(`OnImageLoad`, `OnImageError`).

Two behaviours of the code are worth spelling out:

- The view is reset only when a load succeeds (`img.onload`), not when a
  switch begins.
- The extensions are removed wherever they first occur in the name, not only
  at its end.

## Model

| member | source | states |
|---|---|---|
| `Numeric.Clamp` | js/panorama-viewer.js:283 | the result lies in [lo, hi]; it equals x when x is inside, and the nearer bound otherwise |
| `Numeric.JsRem360` | js/panorama-viewer.js:309 | JavaScript's `x % 360` lies in [0, 360) for x >= 0 and in (-360, 0] for x < 0, and differs from x by a whole number of turns |
| `Projection.NormalizeYaw` | js/panorama-viewer.js:309 | `((yaw % 360 + 360) % 360)` lies in [0, 360) for every yaw |
| `Projection.NormalizeYawIsFloorMod` | js/panorama-viewer.js:309 | the truncating-`%` expression equals the floor modulus `yaw - 360 * floor(yaw / 360)` |
| `Projection.NormalizeYawPeriodic` | js/panorama-viewer.js:309 | adding any whole number of turns (360 k) to yaw leaves the normalised yaw unchanged |
| `Projection.SourceX` | js/panorama-viewer.js:309 | the crop's left edge lies in [0, imgWidth) |
| `Projection.SourceXPeriodic` | js/panorama-viewer.js:309 | the crop's left edge is unchanged by whole turns of yaw, and yaw 0 starts at x = 0 |
| `Projection.SourceXAtZero` | js/panorama-viewer.js:309 | yaw 0 starts the crop at the image's left edge |
| `Projection.SourceWidth` | js/panorama-viewer.js:312 | for fov in [30, 120] the crop width is positive and at most a third of the image width |
| `Projection.SourceHeight` | js/panorama-viewer.js:314-315 | the crop height is positive and gives the crop the viewport's aspect ratio (height * width = sourceWidth * viewport height) |
| `Projection.SourceY` | js/panorama-viewer.js:319-325 | the crop's top edge is never negative; a crop that fits ends inside the image and is the pitch-centred position clamped into [0, imgHeight - sourceHeight]; a crop taller than the image starts at 0 |
| `Projection.DestHeight` | js/panorama-viewer.js:331 | the destination height keeps the crop's vertical scale (destHeight * sourceHeight = finalSourceHeight * height), lies in (0, height], equals height exactly when the crop is not trimmed and is smaller when it is |
| `Projection.VerticalCrop` | js/panorama-viewer.js:319-332 | the clamped crop lies inside the image; the destination band lies inside the viewport, centred, with the same vertical scale; a crop that fits keeps its height, fills the viewport and is the pitch-centred crop clamped into the image; a crop taller than the image starts at 0, is trimmed to the image height and is letterboxed |
| `Projection.PitchExtremes` | js/panorama-viewer.js:319-325 | a crop that fits touches the top edge at pitch -90 and the bottom edge at pitch 90 |
| `Projection.HorizontalDraws` | js/panorama-viewer.js:338-363 | exactly two draws when the crop passes the right edge, else one; the left part ends at the image edge and the wrapped part starts at x = 0; their source widths add up to the crop width; the destination rectangles tile [0, width) with no gap or overlap; every source rectangle lies inside the image; every draw has the same horizontal scale |
| `Projection.Project` | js/panorama-viewer.js:305-363 | one frame has one or two draws (two exactly when the crop wraps, in which case the left part ends at the image's right edge and the wrapped part starts at x = 0); source rectangles lie inside the image and add up to the crop width; destination rectangles lie inside the viewport and tile its width from 0; the horizontal scale is uniform; every draw takes the vertical band that `VerticalCrop` places for the view's pitch (source y and height, destination y and height) |
| `Projection.ProjectKeepsAspect` | js/panorama-viewer.js:314-363 | every draw of a frame keeps the aspect ratio of the image part it shows (dst.w * src.h = dst.h * src.w), so the frame is drawn without distortion |
| `Projection.HomeViewQuantities` | js/panorama-viewer.js:305-332 | image 2000x1000, viewport 800x600, home view: crop x 0, width 500, height 375, y 312.5, no letterbox |
| `Projection.HomeViewExample` | js/panorama-viewer.js:358-363 | the same frame is the single draw (0, 312.5, 500, 375) to (0, 0, 800, 600) |
| `Projection.WrapQuantities` | js/panorama-viewer.js:309-332 | image 1000x500, viewport 800x600, yaw 324, pitch 0, fov 72: crop x 900, width 200, height 150, y 175, no letterbox |
| `Projection.WrapExample` | js/panorama-viewer.js:338-357 | a crop from x = 900 that is 200 wide in a 1000-wide image splits into 100 + 100 source pixels drawn to two 400-pixel halves of the viewport |
| `Names.ReplaceAllChar` | js/panorama-viewer.js:63 | `replace(/_/g, ' ')`: same length, every matching character replaced and every other character kept |
| `Names.IndexOfFrom` | js/panorama-viewer.js:63 | finds an occurrence of the pattern at or after the start, and no earlier one |
| `Names.IndexOf` | js/panorama-viewer.js:63 | finds the first occurrence of the pattern, or reports that there is none |
| `Names.ReplaceFirst` | js/panorama-viewer.js:63 | `replace(pat, rep)` with a string pattern: the string is unchanged when the pattern is absent; otherwise the text before the first occurrence is kept, the occurrence is exchanged for the replacement and the text after it is kept; no new characters appear |
| `Names.StripExtensions` | js/panorama-viewer.js:63 | deleting the first `.png`, `.jpg` and `.jpeg` never lengthens the name or adds characters |
| `Names.DisplayName` | js/panorama-viewer.js:63 | a display name contains no underscore and is no longer than the file name |
| `Names.DisplayNameWithoutExtension` | js/panorama-viewer.js:63 | a name in which no extension occurs only has its underscores turned into spaces |
| `Names.StripDottedExtension` | js/panorama-viewer.js:63 | on a string whose only '.' starts a trailing `.png`, `.jpg` or `.jpeg`, the three chained deletions remove exactly that extension |
| `Names.DisplayNameStripsExtension` | js/panorama-viewer.js:63 | a base with no '.' followed by `.png`, `.jpg` or `.jpeg` is shown as the base with underscores turned into spaces |
| `Viewer.PngDisplayName` | js/panorama-viewer.js:50-63 | a name `base.png`, with no '.' or '_' in base (as in the configured `Panorama.png`, `Panorama1.png` and `Panorama2.png`), is shown as its base |
| `Viewer.Entry` | js/panorama-viewer.js:60-64 | an entry keeps its file name, is served from `images/`, and its display name is `DisplayName` of the file name (so it has no underscores) |
| `Viewer.PanoramaList` | js/panorama-viewer.js:60-64 | one entry per configured name, in order: entry i is `Entry` of name i, so it keeps the name, is served from `images/` and has an underscore-free display name |
| `Viewer.DraggedPitch` | js/panorama-viewer.js:210 | the pitch after a vertical drag stays in [-90, 90]; it moves by exactly `-dy * sensitivity` when that stays inside, and stops at -90 or 90 when the drag would pass that bound |
| `Viewer.PinchDistanceUnique` | js/panorama-viewer.js:272-279 | `IsPinchDistance`, which stands for `getPinchDistance`, fixes the distance uniquely: 0 with fewer than two touches, otherwise the one non-negative square root of dx * dx + dy * dy |
| `Viewer.ZoomButtonsUndo` | js/panorama-viewer.js:100-101 | zoom-in (-10) followed by zoom-out (+10) restores any fov from 40 to 120 |
| `Viewer.PinchDirection` | js/panorama-viewer.js:253-255 | spreading the fingers never increases fov (zoom in), pinching them together never decreases it |
| `Viewer.PanoramaViewer.constructor` | js/panorama-viewer.js:2-31 | the panorama list is built from the configured names; index 0, no image, home view, no gesture, no touches |
| `Viewer.PanoramaViewer.Zoom` | js/panorama-viewer.js:282-284 | fov becomes `clamp(fov + delta, 30, 120)`, whatever its previous value; only fov changes |
| `Viewer.PanoramaViewer.ResetView` | js/panorama-viewer.js:286-290 | yaw 0, pitch 0, fov 90 from any state; nothing else changes |
| `Viewer.PanoramaViewer.OnZoomIn` | js/panorama-viewer.js:100 | the zoom-in button narrows fov by 10 within the clamp |
| `Viewer.PanoramaViewer.OnZoomOut` | js/panorama-viewer.js:101 | the zoom-out button widens fov by 10 within the clamp |
| `Viewer.PanoramaViewer.OnMouseDown` | js/panorama-viewer.js:197-201 | starts dragging, anchored at the pointer |
| `Viewer.PanoramaViewer.OnMouseMove` | js/panorama-viewer.js:203-214 | changes nothing when not dragging; otherwise yaw grows by exactly `(x - lastX) * 0.3`, pitch becomes `clamp(pitch - (y - lastY) * 0.3, -90, 90)` and the anchor moves to the pointer |
| `Viewer.PanoramaViewer.OnMouseUp` | js/panorama-viewer.js:216-218 | only clears `isDragging` |
| `Viewer.PanoramaViewer.OnWheel` | js/panorama-viewer.js:220-223 | fov becomes `clamp(fov + deltaY * 0.1, 30, 120)` |
| `Viewer.PanoramaViewer.OnTouchStart` | js/panorama-viewer.js:226-237 | stores the touches; one touch starts a drag anchored on it; two touches record the pinch distance; any other count changes nothing else |
| `Viewer.PanoramaViewer.OnTouchMove` | js/panorama-viewer.js:239-258 | one touch while dragging pans like the mouse with factor 0.5 and pitch kept in [-90, 90]; two touches set fov to `clamp(fov + (lastPinchDistance - d) * 0.5, 30, 120)` and store d; otherwise only the touches change |
| `Viewer.PanoramaViewer.OnTouchEnd` | js/panorama-viewer.js:260-270 | no touch left ends the drag; one left re-anchors the drag on it; more leave the gesture state alone |
| `Viewer.PanoramaViewer.LoadPanorama` | js/panorama-viewer.js:162-166 | an index outside [0, count) changes nothing; an index inside shows the indicator and becomes `currentIndex` at once, before the image arrives; image and view are untouched |
| `Viewer.PanoramaViewer.OnImageLoad` | js/panorama-viewer.js:171-177 | a successful decode replaces the current image with the one at that index, resets to yaw 0, pitch 0, fov 90 and hides the indicator |
| `Viewer.PanoramaViewer.OnImageError` | js/panorama-viewer.js:179-183 | a failed decode only hides the indicator; the previous image and the view stay, although `currentIndex` has already moved |
| `Viewer.PanoramaViewer.Render` | js/panorama-viewer.js:293-363 | no draws while no image is loaded; otherwise exactly the draws `Project` computes for the current view and image, so every property of `Project` holds; in particular the draws tile the viewport width from 0 with the second starting where the first ends, every source rectangle lies inside the image and every destination rectangle inside the viewport |

## Left out

- Browser I/O is not modelled: DOM lookup, canvas sizing and the `devicePixelRatio` scaling. The viewport size is a parameter of `Render`, in logical pixels.
- Event-listener registration is not modelled, apart from what it fixes: zoom-in passes -10, zoom-out passes +10 (`OnZoomIn`, `OnZoomOut`), and `mouseleave` is bound to `onMouseUp`. `preventDefault` calls and the context-menu suppression are left out.
- UI glue is left out: the switcher panel, the thumbnails, `updateImageCount` and `updateActiveThumbnail`.
- Frame scheduling is left out: `requestAnimationFrame`, `destroy` and the asynchronous `init` sequence. In particular, if the first `loadPanorama(0)` in `init` fails, the awaited promise rejects before `render` is first called, so no frame is ever drawn in that session, even after a later successful switch; the model's `Render` is a pure function of the state and does not capture this. `Render` models one frame. The client method `FailedSwitchKeepsView` plays through a session by hand.
- Canvas calls are left out: `clearRect`, `save`, `restore` and `drawImage`. `Render` returns the rectangles that `drawImage` would receive.
- `getPinchDistance` uses `Math.sqrt`. It is replaced by the predicate `IsPinchDistance`: the caller passes a distance d >= 0 with d * d = dx * dx + dy * dy, or 0 with fewer than two touches. A touch point keeps only its `clientX` and `clientY`.
- All arithmetic uses exact reals. IEEE-754 rounding, NaN and infinities are not modelled, so the model does not claim bit-exact agreement with JavaScript.
- The image decode itself, the `Promise` and the `console.error` logging are asynchronous or foreign I/O and are left out. A completion names the index that the callback captured. The race between overlapping loads (last completion wins) is not modelled.
- The loading indicator's state before the first load comes from the page's markup, which is not part of the model; the constructor starts it hidden.
- Viewer.PanoramaViewer.OnImageLoad: requires a decoded image of positive width and height. For a zero-size image, JavaScript would compute NaN rectangles, which exact reals cannot express.
- Projection.Project: requires fov in [30, 120] and positive image and viewport sizes. The class invariant `Valid()` provides the fov bound, and `Render` supplies it from there.

=== FILE: names.dfy ===
/**
 * The display name shown for each panorama, derived from its file name by
 * `name.replace(/_/g, ' ').replace('.png', '').replace('.jpg', '').replace('.jpeg', '')`:
 * every underscore becomes a space, then the FIRST occurrence of each of the
 * three extensions (in that order) is deleted, as JavaScript's `replace` with
 * a string pattern touches only the first match.
 */
module Names {
  import opened Wrappers

  /** `pat` occurs in `s` starting at index `i`. */
  predicate OccursAt(s: string, pat: string, i: int) {
    0 <= i && i + |pat| <= |s| && s[i..i + |pat|] == pat
  }

  /** `s` with every occurrence of the character `from` replaced by `to` (a global regex replace). */
  function ReplaceAllChar(s: string, from: char, to: char): (r: string)
    ensures |r| == |s|
    ensures forall i :: 0 <= i < |s| ==> r[i] == (if s[i] == from then to else s[i])
  {
    if s == [] then [] else [if s[0] == from then to else s[0]] + ReplaceAllChar(s[1..], from, to)
  }

  /** The first index at or after `start` where `pat` occurs in `s`. */
  function IndexOfFrom(s: string, pat: string, start: nat): (r: Option<nat>)
    requires start <= |s|
    ensures r.Some? ==> start <= r.value && OccursAt(s, pat, r.value)
    ensures forall j :: start <= j && (r.None? || j < r.value) ==> !OccursAt(s, pat, j)
    decreases |s| - start
  {
    if start + |pat| > |s| then None
    else if s[start..start + |pat|] == pat then Some(start)
    else IndexOfFrom(s, pat, start + 1)
  }

  /** `String.prototype.indexOf`: the first index where `pat` occurs in `s`, if any. */
  function IndexOf(s: string, pat: string): (r: Option<nat>)
    ensures r.Some? ==> OccursAt(s, pat, r.value)
    ensures forall j :: 0 <= j && (r.None? || j < r.value) ==> !OccursAt(s, pat, j)
  {
    IndexOfFrom(s, pat, 0)
  }

  /** `s.replace(pat, rep)` with a string pattern: only the first occurrence is replaced. */
  function ReplaceFirst(s: string, pat: string, rep: string): (r: string)
    ensures IndexOf(s, pat).None? ==> r == s
    ensures IndexOf(s, pat).Some? ==> |r| == |s| - |pat| + |rep|
    ensures IndexOf(s, pat).Some? ==>
      var i := IndexOf(s, pat).value;
      r[..i] == s[..i] && r[i..i + |rep|] == rep && r[i + |rep|..] == s[i + |pat|..]
    ensures forall c :: c in r ==> c in s || c in rep
  {
    match IndexOf(s, pat)
    case None => s
    case Some(i) => s[..i] + rep + s[i + |pat|..]
  }

  /** The displayName of a panorama whose file name is `name`. */
  function DisplayName(name: string): (r: string)
    ensures '_' !in r
    ensures |r| <= |name|
  {
    StripExtensions(ReplaceAllChar(name, '_', ' '))
  }

  /** The three chained `replace` calls that delete the first `.png`, `.jpg` and `.jpeg`. */
  function StripExtensions(s: string): (r: string)
    ensures forall c :: c in r ==> c in s
    ensures |r| <= |s|
  {
    ReplaceFirst(ReplaceFirst(ReplaceFirst(s, ".png", ""), ".jpg", ""), ".jpeg", "")
  }

  /** A name in which none of the three extensions occurs only has its underscores turned into spaces. */
  lemma DisplayNameWithoutExtension(name: string)
    requires IndexOf(ReplaceAllChar(name, '_', ' '), ".png").None?
    requires IndexOf(ReplaceAllChar(name, '_', ' '), ".jpg").None?
    requires IndexOf(ReplaceAllChar(name, '_', ' '), ".jpeg").None?
    ensures DisplayName(name) == ReplaceAllChar(name, '_', ' ')
  {
  }

  /**
   * A base name with no '.' followed by one of the three extensions loses
   * exactly that extension: `my_building.jpg` is shown as `my building`.
   */
  lemma DisplayNameStripsExtension(base: string, ext: string)
    requires '.' !in base
    requires ext == ".png" || ext == ".jpg" || ext == ".jpeg"
    ensures DisplayName(base + ext) == ReplaceAllChar(base, '_', ' ')
  {
    var b := ReplaceAllChar(base, '_', ' ');
    assert '.' !in b;
    ReplaceAllCharAbsent(ext, '_', ' ');
    ReplaceAllCharAppend(base, ext, '_', ' ');
    StripDottedExtension(b, ext);
    assert DisplayName(base + ext) == StripExtensions(b + ext);
  }

  /** Replacing a character in a concatenation replaces it in each part. */
  lemma ReplaceAllCharAppend(x: string, y: string, from: char, to: char)
    ensures ReplaceAllChar(x + y, from, to) == ReplaceAllChar(x, from, to) + ReplaceAllChar(y, from, to)
  {
  }

  /** Replacing a character that does not occur changes nothing. */
  lemma ReplaceAllCharAbsent(s: string, from: char, to: char)
    requires from !in s
    ensures ReplaceAllChar(s, from, to) == s
  {
  }

  /** Stripping the extensions from `b + ext`, where `b` has no '.', removes exactly `ext`. */
  lemma StripDottedExtension(b: string, ext: string)
    requires '.' !in b
    requires ext == ".png" || ext == ".jpg" || ext == ".jpeg"
    ensures StripExtensions(b + ext) == b
  {
    if ext == ".png" {
      StripPng(b);
    } else if ext == ".jpg" {
      StripJpg(b);
    } else {
      StripJpeg(b);
    }
  }

  /** Deleting the occurrence of `pat` that ends the string leaves what came before it. */
  lemma ReplaceFirstAtEnd(b: string, pat: string)
    requires IndexOf(b + pat, pat) == Some(|b|)
    ensures ReplaceFirst(b + pat, pat, "") == b
  {
    var s := b + pat;
    assert s[..|b|] == b && s[|b| + |pat|..] == [];
  }

  lemma StripPng(b: string)
    requires '.' !in b
    ensures StripExtensions(b + ".png") == b
  {
    assert '.' !in ".png"[1..];
    IndexOfDotted(b, ".png", ".png");
    ReplaceFirstAtEnd(b, ".png");
    NoDotNoOccurrence(b, ".jpg");
    NoDotNoOccurrence(b, ".jpeg");
  }

  lemma StripJpg(b: string)
    requires '.' !in b
    ensures StripExtensions(b + ".jpg") == b
  {
    assert '.' !in ".jpg"[1..];
    IndexOfDotted(b, ".jpg", ".png");
    IndexOfDotted(b, ".jpg", ".jpg");
    ReplaceFirstAtEnd(b, ".jpg");
    NoDotNoOccurrence(b, ".jpeg");
  }

  lemma StripJpeg(b: string)
    requires '.' !in b
    ensures StripExtensions(b + ".jpeg") == b
  {
    assert '.' !in ".jpeg"[1..];
    IndexOfDotted(b, ".jpeg", ".png");
    IndexOfDotted(b, ".jpeg", ".jpg");
    assert ".jpeg"[..4] != ".jpg" by { assert ".jpeg"[..4][3] == 'e'; }
    IndexOfDotted(b, ".jpeg", ".jpeg");
    ReplaceFirstAtEnd(b, ".jpeg");
  }

  /** A dotted pattern occurs in `b + ext`, whose only '.' starts `ext`, exactly when it is a prefix of `ext`. */
  lemma IndexOfDotted(b: string, ext: string, pat: string)
    requires '.' !in b && |ext| > 0 && '.' !in ext[1..]
    requires |pat| > 0 && pat[0] == '.'
    ensures IndexOf(b + ext, pat) == if |pat| <= |ext| && ext[..|pat|] == pat then Some(|b|) else None
  {
    var s := b + ext;
    forall j | OccursAt(s, pat, j) ensures j == |b| && |pat| <= |ext| && ext[..|pat|] == pat {
      assert s[j] == pat[0];
      assert s[j..j + |pat|] == ext[..|pat|];
    }
    if |pat| <= |ext| && ext[..|pat|] == pat {
      assert s[|b|..|b| + |pat|] == ext[..|pat|];
      assert OccursAt(s, pat, |b|);
    }
  }

  /** A pattern that starts with '.' does not occur in a string without '.'. */
  lemma NoDotNoOccurrence(s: string, pat: string)
    requires '.' !in s && |pat| > 0 && pat[0] == '.'
    ensures IndexOf(s, pat).None?
  {
    forall j | 0 <= j < |s| && j + |pat| <= |s| ensures !OccursAt(s, pat, j) {
      assert s[j..j + |pat|][0] == s[j];
    }
  }
}

=== FILE: numeric.dfy ===
/**
 * Real-number helpers shared by the view-state controller and the projection:
 * the clamp written as `Math.max(lo, Math.min(hi, x))` in the viewer, and
 * JavaScript's `%` operator, which truncates toward zero.
 */
module Numeric {

  function Min(a: real, b: real): real { if a <= b then a else b }

  function Max(a: real, b: real): real { if a >= b then a else b }

  /** `Math.max(lo, Math.min(hi, x))`: the nearest point of [lo, hi] to x. */
  function Clamp(lo: real, hi: real, x: real): (r: real)
    requires lo <= hi
    ensures lo <= r <= hi
    ensures lo <= x <= hi ==> r == x
    ensures x < lo ==> r == lo
    ensures x > hi ==> r == hi
  {
    Max(lo, Min(hi, x))
  }

  /** Clamping never reverses the order of two inputs. */
  lemma ClampMonotone(lo: real, hi: real, x: real, y: real)
    requires lo <= hi && x <= y
    ensures Clamp(lo, hi, x) <= Clamp(lo, hi, y)
  {
  }

  /** The greatest integer not above x. */
  function Floor(x: real): (n: int)
    ensures n as real <= x < n as real + 1.0
  {
    x.Floor
  }

  /** The integer part of x, rounding toward zero. */
  function Trunc(x: real): (n: int)
    ensures 0.0 <= x ==> n as real <= x < n as real + 1.0
    ensures x < 0.0 ==> n as real - 1.0 < x <= n as real
  {
    if 0.0 <= x then Floor(x) else -Floor(-x)
  }

  /** JavaScript's remainder `a % 360`, whose sign follows `a` (it truncates the quotient toward zero). */
  function JsRem360(a: real): (r: real)
    ensures 0.0 <= a ==> 0.0 <= r < 360.0
    ensures a < 0.0 ==> -360.0 < r <= 0.0
    ensures ((a - r) / 360.0).Floor as real == (a - r) / 360.0
  {
    a - Trunc(a / 360.0) as real * 360.0
  }

  /** Multiplying both sides of a strict inequality by a positive factor keeps it strict. */
  lemma ScaleStrict(x: real, y: real, m: real)
    requires x < y && m > 0.0
    ensures x * m < y * m
  {
    assert y * m - x * m == (y - x) * m;
  }

  /** Multiplying both sides of an inequality by a positive factor keeps it. */
  lemma ScaleWeak(x: real, y: real, m: real)
    requires x <= y && m > 0.0
    ensures x * m <= y * m
  {
    assert y * m - x * m == (y - x) * m;
  }

  /** Squaring is strictly increasing on the non-negative reals. */
  lemma SquareStrict(lo: real, hi: real)
    requires 0.0 <= lo < hi
    ensures lo * lo < hi * hi
  {
    ScaleStrict(0.0, hi - lo, hi + lo);
    assert hi * hi - lo * lo == (hi - lo) * (hi + lo);
  }

  /** Where a quotient by a positive number lies relative to 0 and 1. */
  lemma QuotientBounds(a: real, b: real)
    requires b > 0.0
    ensures 0.0 < a ==> 0.0 < a / b
    ensures a <= b ==> a / b <= 1.0
    ensures a < b ==> a / b < 1.0
  {
    assert a / b * b == a;
    assert 1.0 * b == b;
    if a / b > 1.0 {
      ScaleStrict(1.0, a / b, b);
    } else if a / b == 1.0 {
    } else {
      ScaleStrict(a / b, 1.0, b);
    }
    if a / b <= 0.0 {
      ScaleWeak(a / b, 0.0, b);
    }
  }
}

=== FILE: projection.dfy ===
/**
 * One frame of the viewer's `render`: from the view (yaw, pitch, fov), the
 * image size and the viewport size, the rectangles that `drawImage` copies.
 * The source image is taken to be a full 360-degree horizontal panorama that
 * is cropped, not re-projected. Instead of drawing, the model returns the
 * (source rectangle, destination rectangle) pairs in drawing order.
 */
module Projection {
  import opened Numeric

  /** Zoom limits, `minFov` and `maxFov` of the viewer. */
  const MinFov: real := 30.0
  const MaxFov: real := 120.0

  datatype View = View(yaw: real, pitch: real, fov: real)

  /** An axis-aligned rectangle: top-left corner, width and height. */
  datatype Rect = Rect(x: real, y: real, w: real, h: real)

  /** One `drawImage` call: copy `src` in image space to `dst` in viewport space. */
  datatype Draw = Draw(src: Rect, dst: Rect)

  /** The vertical part of a crop: where it starts in the image, how tall it is, and where it lands. */
  datatype Vertical = Vertical(sourceY: real, finalSourceHeight: real, destY: real, destHeight: real)

  /** `((yaw % 360 + 360) % 360)`, with JavaScript's truncating `%`. */
  function NormalizeYaw(yaw: real): (n: real)
    ensures 0.0 <= n < 360.0
  {
    JsRem360(JsRem360(yaw) + 360.0)
  }

  /** The JavaScript expression is the floor-based modulus `yaw - 360 * floor(yaw / 360)`. */
  lemma NormalizeYawIsFloorMod(yaw: real)
    ensures NormalizeYaw(yaw) == yaw - 360.0 * Floor(yaw / 360.0) as real
  {
    var inner := JsRem360(yaw);
    if 0.0 <= yaw {
      assert Trunc(yaw / 360.0) == Floor(yaw / 360.0);
      assert Trunc((inner + 360.0) / 360.0) == 1;
    } else {
      assert Trunc(yaw / 360.0) == -Floor(-yaw / 360.0);
      if inner == 0.0 {
        assert Trunc((inner + 360.0) / 360.0) == 1;
        assert Floor(yaw / 360.0) == Trunc(yaw / 360.0);
      } else {
        assert Trunc((inner + 360.0) / 360.0) == 0;
        assert Floor(yaw / 360.0) == Trunc(yaw / 360.0) - 1;
      }
    }
  }

  /** Turning by a whole number of revolutions does not change the normalised yaw. */
  lemma NormalizeYawPeriodic(yaw: real, k: int)
    ensures NormalizeYaw(yaw + 360.0 * k as real) == NormalizeYaw(yaw)
  {
    NormalizeYawIsFloorMod(yaw);
    NormalizeYawIsFloorMod(yaw + 360.0 * k as real);
    assert (yaw + 360.0 * k as real) / 360.0 == yaw / 360.0 + k as real;
    assert Floor(yaw / 360.0 + k as real) == Floor(yaw / 360.0) + k;
  }

  /** Left edge of the crop: the normalised yaw as a fraction of a turn of the image width. */
  function SourceX(yaw: real, imgWidth: real): (x: real)
    requires imgWidth > 0.0
    ensures 0.0 <= x < imgWidth
  {
    FractionOf(NormalizeYaw(yaw) / 360.0, imgWidth);
    NormalizeYaw(yaw) / 360.0 * imgWidth
  }

  /** A fraction in [0, 1) of a positive length lies in [0, length). */
  lemma FractionOf(f: real, len: real)
    requires 0.0 <= f < 1.0 && len > 0.0
    ensures 0.0 <= f * len < len
  {
    ScaleWeak(0.0, f, len);
    ScaleStrict(f, 1.0, len);
    assert 0.0 * len == 0.0 && 1.0 * len == len;
  }

  /** Width of the crop: the field of view as a fraction of a turn of the image width. */
  function SourceWidth(fov: real, imgWidth: real): (w: real)
    requires imgWidth > 0.0 && MinFov <= fov <= MaxFov
    ensures 0.0 < w <= imgWidth / 3.0
  {
    ScaleStrict(0.0, fov / 360.0, imgWidth);
    ScaleWeak(fov / 360.0, 1.0 / 3.0, imgWidth);
    (fov / 360.0) * imgWidth
  }

  /** Height of the crop, with the viewport's aspect ratio. */
  function SourceHeight(sourceWidth: real, width: real, height: real): (h: real)
    requires sourceWidth > 0.0 && width > 0.0 && height > 0.0
    ensures h > 0.0
    ensures h * width == sourceWidth * height
  {
    ScaleStrict(0.0, height / width, sourceWidth);
    assert height / width * width == height;
    sourceWidth * (height / width)
  }

  /**
   * Top edge of the crop: centred on the pitch (mapped linearly from
   * [-90, 90] to the image height), then clamped into [0, imgHeight - sourceHeight].
   * When the crop is taller than the image that range is empty and the top edge is 0.
   */
  function SourceY(pitch: real, sourceHeight: real, imgHeight: real): (y: real)
    requires sourceHeight > 0.0 && imgHeight > 0.0
    ensures 0.0 <= y
    ensures sourceHeight <= imgHeight ==>
      y + sourceHeight <= imgHeight &&
      y == Clamp(0.0, imgHeight - sourceHeight, (pitch + 90.0) / 180.0 * imgHeight - sourceHeight / 2.0)
    ensures imgHeight < sourceHeight ==> y == 0.0
  {
    Max(0.0, Min(imgHeight - sourceHeight, (pitch + 90.0) / 180.0 * imgHeight - sourceHeight / 2.0))
  }

  /** Height of the destination band: the viewport height scaled by the fraction of the crop that survived trimming. */
  function DestHeight(finalSourceHeight: real, sourceHeight: real, height: real): (h: real)
    requires 0.0 < finalSourceHeight <= sourceHeight && height > 0.0
    ensures 0.0 < h <= height
    ensures finalSourceHeight == sourceHeight ==> h == height
    ensures finalSourceHeight < sourceHeight ==> h < height
    ensures h * sourceHeight == finalSourceHeight * height
  {
    QuotientBounds(finalSourceHeight, sourceHeight);
    ScaleStrict(0.0, finalSourceHeight / sourceHeight, height);
    ScaleWeak(finalSourceHeight / sourceHeight, 1.0, height);
    if finalSourceHeight < sourceHeight then
      ScaleStrict(finalSourceHeight / sourceHeight, 1.0, height);
      (finalSourceHeight / sourceHeight) * height
    else
      (finalSourceHeight / sourceHeight) * height
  }

  /** The destination band and the trimmed source band have the same vertical scale. */
  predicate SameVerticalScale(v: Vertical, sourceHeight: real, height: real) {
    v.destHeight * sourceHeight == v.finalSourceHeight * height
  }

  /**
   * Place the crop vertically: clamp it into the image, trim it if it is
   * taller than the image, and centre what is left in the viewport (leaving
   * letterbox bands when it was trimmed).
   */
  function VerticalCrop(pitch: real, sourceHeight: real, imgHeight: real, height: real): (v: Vertical)
    requires sourceHeight > 0.0 && imgHeight > 0.0 && height > 0.0
    ensures VerticalFits(v, imgHeight, height)
    ensures v.finalSourceHeight <= sourceHeight
    ensures v.destY + v.destHeight + v.destY == height
    ensures SameVerticalScale(v, sourceHeight, height)
    ensures sourceHeight <= imgHeight ==>
      v.finalSourceHeight == sourceHeight && v.destHeight == height && v.destY == 0.0 &&
      v.sourceY == Clamp(0.0, imgHeight - sourceHeight, (pitch + 90.0) / 180.0 * imgHeight - sourceHeight / 2.0)
    ensures imgHeight < sourceHeight ==>
      v.sourceY == 0.0 && v.finalSourceHeight == imgHeight && v.destHeight < height && 0.0 < v.destY
  {
    var sourceY := SourceY(pitch, sourceHeight, imgHeight);
    var finalSourceHeight := Min(sourceHeight, imgHeight - sourceY);
    var destHeight := DestHeight(finalSourceHeight, sourceHeight, height);
    Vertical(sourceY, finalSourceHeight, (height - destHeight) / 2.0, destHeight)
  }

  /** At the extreme pitches a crop that fits the image touches the top or the bottom edge. */
  lemma PitchExtremes(sourceHeight: real, imgHeight: real, height: real)
    requires 0.0 < sourceHeight <= imgHeight && height > 0.0
    ensures VerticalCrop(-90.0, sourceHeight, imgHeight, height).sourceY == 0.0
    ensures VerticalCrop(90.0, sourceHeight, imgHeight, height).sourceY == imgHeight - sourceHeight
  {
  }

  /** A vertical placement whose source band lies in an image imgHeight tall and whose destination band lies in a viewport height tall. */
  predicate VerticalFits(v: Vertical, imgHeight: real, height: real) {
    0.0 <= v.sourceY && 0.0 < v.finalSourceHeight && v.sourceY + v.finalSourceHeight <= imgHeight &&
    0.0 <= v.destY && 0.0 < v.destHeight && v.destY + v.destHeight <= height
  }

  /**
   * The horizontal split of `render`: one draw when the crop fits left of
   * the image's right edge, otherwise a left part up to the edge and a part
   * wrapped round to x = 0, each scaled into its share of the viewport width.
   */
  function HorizontalDraws(sourceX: real, sourceWidth: real, imgWidth: real, width: real,
                           v: Vertical, imgHeight: real, height: real): (r: seq<Draw>)
    requires 0.0 <= sourceX < imgWidth && 0.0 < sourceWidth <= imgWidth && width > 0.0
    requires VerticalFits(v, imgHeight, height)
    ensures |r| == (if sourceX + sourceWidth > imgWidth then 2 else 1)
    ensures r[0].src.x == sourceX && r[0].dst.x == 0.0
    ensures r[|r| - 1].dst.x + r[|r| - 1].dst.w == width
    ensures |r| == 2 ==>
      r[0].src.x + r[0].src.w == imgWidth && r[1].src.x == 0.0 &&
      r[1].dst.x == r[0].dst.x + r[0].dst.w
    ensures (if |r| == 2 then r[0].src.w + r[1].src.w else r[0].src.w) == sourceWidth
    ensures forall i :: 0 <= i < |r| ==> InImage(r[i].src, imgWidth, imgHeight) && InViewport(r[i].dst, width, height)
    ensures forall i :: 0 <= i < |r| ==> UniformScale(r[i], sourceWidth, width)
    ensures forall i :: 0 <= i < |r| ==>
      r[i].src.y == v.sourceY && r[i].src.h == v.finalSourceHeight &&
      r[i].dst.y == v.destY && r[i].dst.h == v.destHeight
  {
    if sourceX + sourceWidth > imgWidth then
      var leftWidth := imgWidth - sourceX;
      var leftDestWidth := width * (leftWidth / sourceWidth);
      var wrappedWidth := sourceWidth - leftWidth;
      var wrappedDestWidth := width * (wrappedWidth / sourceWidth);
      ShareOfWidth(leftWidth, sourceWidth, width);
      ShareOfWidth(wrappedWidth, sourceWidth, width);
      SharesAddUp(leftWidth, sourceWidth, width);
      [Draw(Rect(sourceX, v.sourceY, leftWidth, v.finalSourceHeight), Rect(0.0, v.destY, leftDestWidth, v.destHeight)),
       Draw(Rect(0.0, v.sourceY, wrappedWidth, v.finalSourceHeight), Rect(leftDestWidth, v.destY, wrappedDestWidth, v.destHeight))]
    else
      [Draw(Rect(sourceX, v.sourceY, sourceWidth, v.finalSourceHeight), Rect(0.0, v.destY, width, v.destHeight))]
  }

  /** A part of the crop, scaled into the viewport, gets the matching share of its width. */
  lemma ShareOfWidth(part: real, whole: real, width: real)
    requires 0.0 < part < whole && width > 0.0
    ensures 0.0 < width * (part / whole) < width
    ensures width * (part / whole) * whole == part * width
  {
    QuotientBounds(part, whole);
    ScaleStrict(0.0, part / whole, width);
    ScaleStrict(part / whole, 1.0, width);
    assert part / whole * whole == part;
  }

  /** The viewport shares of a part and of the rest of the crop add up to the whole width. */
  lemma SharesAddUp(part: real, whole: real, width: real)
    requires whole > 0.0
    ensures width * (part / whole) + width * ((whole - part) / whole) == width
  {
    assert part / whole + (whole - part) / whole == 1.0;
  }

  /** The draws of one frame of `render` for a loaded image of size imgWidth x imgHeight. */
  function Project(view: View, imgWidth: real, imgHeight: real, width: real, height: real): (r: seq<Draw>)
    requires imgWidth > 0.0 && imgHeight > 0.0 && width > 0.0 && height > 0.0
    requires MinFov <= view.fov <= MaxFov
    ensures 1 <= |r| <= 2
    ensures |r| == 2 <==> SourceX(view.yaw, imgWidth) + SourceWidth(view.fov, imgWidth) > imgWidth
    ensures r[0].src.x == SourceX(view.yaw, imgWidth) && r[0].dst.x == 0.0
    ensures r[|r| - 1].dst.x + r[|r| - 1].dst.w == width
    ensures |r| == 2 ==>
      r[0].src.x + r[0].src.w == imgWidth && r[1].src.x == 0.0 && r[1].dst.x == r[0].dst.x + r[0].dst.w
    ensures (if |r| == 2 then r[0].src.w + r[1].src.w else r[0].src.w) == SourceWidth(view.fov, imgWidth)
    ensures forall i :: 0 <= i < |r| ==> InImage(r[i].src, imgWidth, imgHeight) && InViewport(r[i].dst, width, height)
    ensures forall i :: 0 <= i < |r| ==> UniformScale(r[i], SourceWidth(view.fov, imgWidth), width)
    ensures var v := VerticalCrop(view.pitch, SourceHeight(SourceWidth(view.fov, imgWidth), width, height), imgHeight, height);
      forall i :: 0 <= i < |r| ==>
        r[i].src.y == v.sourceY && r[i].src.h == v.finalSourceHeight &&
        r[i].dst.y == v.destY && r[i].dst.h == v.destHeight
  {
    HorizontalDraws(
      SourceX(view.yaw, imgWidth), SourceWidth(view.fov, imgWidth), imgWidth, width,
      VerticalCrop(view.pitch, SourceHeight(SourceWidth(view.fov, imgWidth), width, height), imgHeight, height),
      imgHeight, height)
  }

  /** The draw is not distorted: its destination rectangle has the aspect ratio of its source rectangle. */
  predicate KeepsAspect(d: Draw) {
    d.dst.w * d.src.h == d.dst.h * d.src.w
  }

  /** Every draw of a frame keeps the aspect ratio of the part of the image it shows. */
  lemma ProjectKeepsAspect(view: View, imgWidth: real, imgHeight: real, width: real, height: real)
    requires imgWidth > 0.0 && imgHeight > 0.0 && width > 0.0 && height > 0.0
    requires MinFov <= view.fov <= MaxFov
    ensures forall i :: 0 <= i < |Project(view, imgWidth, imgHeight, width, height)| ==>
      KeepsAspect(Project(view, imgWidth, imgHeight, width, height)[i])
  {
    var sw := SourceWidth(view.fov, imgWidth);
    DrawsKeepAspect(Project(view, imgWidth, imgHeight, width, height), sw,
      VerticalCrop(view.pitch, SourceHeight(sw, width, height), imgHeight, height), width, height);
  }

  /**
   * Draws with the horizontal scale width / sw and a vertical band cut from
   * a crop of the viewport's aspect ratio keep their aspect ratio.
   */
  lemma DrawsKeepAspect(r: seq<Draw>, sw: real, v: Vertical, width: real, height: real)
    requires sw > 0.0 && width > 0.0 && height > 0.0
    requires SameVerticalScale(v, SourceHeight(sw, width, height), height)
    requires forall i :: 0 <= i < |r| ==> UniformScale(r[i], sw, width)
    requires forall i :: 0 <= i < |r| ==> r[i].src.h == v.finalSourceHeight && r[i].dst.h == v.destHeight
    ensures forall i :: 0 <= i < |r| ==> KeepsAspect(r[i])
  {
    var sh := SourceHeight(sw, width, height);
    forall i | 0 <= i < |r| ensures KeepsAspect(r[i]) {
      var d := r[i];
      assert UniformScale(d, sw, width);
      AspectFromScales(d.src.w, v.finalSourceHeight, d.dst.w, v.destHeight, sw, sh, width, height);
    }
  }

  /**
   * A rectangle scaled horizontally by width / sw and vertically by height / sh,
   * where sh / sw = height / width, is scaled by the same factor both ways.
   */
  lemma AspectFromScales(srcW: real, srcH: real, dstW: real, dstH: real, sw: real, sh: real, width: real, height: real)
    requires sw > 0.0 && height > 0.0
    requires dstW * sw == srcW * width
    requires dstH * sh == srcH * height
    requires sh * width == sw * height
    ensures dstW * srcH == dstH * srcW
  {
    var k := sw * height;
    assert dstW * srcH * k == (dstW * sw) * (srcH * height);
    assert (dstW * sw) * (srcH * height) == (srcW * width) * (dstH * sh);
    assert (srcW * width) * (dstH * sh) == dstH * srcW * (sh * width);
    assert dstH * srcW * (sh * width) == dstH * srcW * k;
    assert (dstW * srcH - dstH * srcW) * k == 0.0;
    ScaleStrict(0.0, k, 1.0);
  }

  /** The draw maps sourceWidth image pixels to width viewport pixels, as its width ratio shows. */
  predicate UniformScale(d: Draw, sourceWidth: real, width: real) {
    d.dst.w * sourceWidth == d.src.w * width
  }

  /** A non-empty rectangle that lies inside a w x h image. */
  predicate InImage(s: Rect, w: real, h: real) {
    0.0 <= s.x && 0.0 < s.w && s.x + s.w <= w && 0.0 <= s.y && 0.0 < s.h && s.y + s.h <= h
  }

  /** A non-empty rectangle that lies inside a w x h viewport. */
  predicate InViewport(d: Rect, w: real, h: real) {
    0.0 <= d.x && 0.0 < d.w && d.x + d.w <= w && 0.0 <= d.y && 0.0 < d.h && d.y + d.h <= h
  }

  /** The crop's left edge only depends on the yaw modulo a full turn, and yaw 0 starts at the image's left edge. */
  lemma SourceXPeriodic(yaw: real, k: int, imgWidth: real)
    requires imgWidth > 0.0
    ensures SourceX(yaw + 360.0 * k as real, imgWidth) == SourceX(yaw, imgWidth)
    ensures SourceX(0.0, imgWidth) == 0.0
  {
    NormalizeYawPeriodic(yaw, k);
    SourceXOfNormalized(yaw + 360.0 * k as real, yaw, imgWidth);
    SourceXAtZero(imgWidth);
  }

  /** Yaw 0 starts the crop at the image's left edge. */
  lemma SourceXAtZero(imgWidth: real)
    requires imgWidth > 0.0
    ensures SourceX(0.0, imgWidth) == 0.0
  {
    NormalizeYawZero();
    assert 0.0 / 360.0 * imgWidth == 0.0;
  }

  /** Two yaws with the same normalised value give the same crop edge. */
  lemma SourceXOfNormalized(a: real, b: real, imgWidth: real)
    requires imgWidth > 0.0 && NormalizeYaw(a) == NormalizeYaw(b)
    ensures SourceX(a, imgWidth) == SourceX(b, imgWidth)
  {
  }

  /** Yaw 0 is already normalised. */
  lemma NormalizeYawZero()
    ensures NormalizeYaw(0.0) == 0.0
  {
    assert Trunc(0.0 / 360.0) == 0 && Trunc(360.0 / 360.0) == 1;
  }

  /** Image 2000 x 1000, viewport 800 x 600, home view: the intermediate quantities of `render`. */
  lemma HomeViewQuantities()
    ensures SourceX(0.0, 2000.0) == 0.0
    ensures SourceWidth(90.0, 2000.0) == 500.0
    ensures SourceHeight(500.0, 800.0, 600.0) == 375.0
    ensures VerticalCrop(0.0, 375.0, 1000.0, 600.0) == Vertical(312.5, 375.0, 0.0, 600.0)
  {
    SourceXPeriodic(0.0, 0, 2000.0);
  }

  /** The same frame as a single draw with no clamping and no letterbox. */
  lemma HomeViewExample()
    ensures Project(View(0.0, 0.0, 90.0), 2000.0, 1000.0, 800.0, 600.0)
         == [Draw(Rect(0.0, 312.5, 500.0, 375.0), Rect(0.0, 0.0, 800.0, 600.0))]
  {
    HomeViewQuantities();
  }

  /**
   * Image 1000 x 500, viewport 800 x 600, yaw 324 and fov 72: the crop starts at
   * x = 900 and is 200 wide, so it splits into 100 + 100 source pixels drawn to
   * two 400-pixel halves of the viewport.
   */
  lemma WrapExample()
    ensures Project(View(324.0, 0.0, 72.0), 1000.0, 500.0, 800.0, 600.0)
         == [Draw(Rect(900.0, 175.0, 100.0, 150.0), Rect(0.0, 0.0, 400.0, 600.0)),
             Draw(Rect(0.0, 175.0, 100.0, 150.0), Rect(400.0, 0.0, 400.0, 600.0))]
  {
    WrapQuantities();
  }

  /** The intermediate quantities of the wrapping frame: crop x 900, width 200, height 150, y 175. */
  lemma WrapQuantities()
    ensures SourceX(324.0, 1000.0) == 900.0
    ensures SourceWidth(72.0, 1000.0) == 200.0
    ensures SourceHeight(200.0, 800.0, 600.0) == 150.0
    ensures VerticalCrop(0.0, 150.0, 500.0, 600.0) == Vertical(175.0, 150.0, 0.0, 600.0)
  {
    assert NormalizeYaw(324.0) == 324.0 by {
      assert Trunc(324.0 / 360.0) == 0;
      assert Trunc(684.0 / 360.0) == 1;
    }
  }
}

=== FILE: viewer.dfy ===
/**
 * The `PanoramaViewer` object: the list of panoramas, the image on screen,
 * the view (yaw, pitch, fov) and the bookkeeping of mouse and touch
 * gestures, with the event handlers that update them in place.
 *
 * Browser events become method parameters: a mouse event is its
 * (clientX, clientY); a touch event is its list of touch points; the image
 * decoder's two callbacks are the methods OnImageLoad and OnImageError.
 */
module Viewer {
  import opened Wrappers
  import opened Numeric
  import opened Names
  import opened Projection

  /** Drag sensitivity in degrees per pixel: mouse, and the coarser touch. */
  const MouseSensitivity: real := 0.3
  const TouchSensitivity: real := 0.5

  /** Home view restored by `resetView`. */
  const HomeFov: real := 90.0

  datatype Panorama = Panorama(name: string, path: string, displayName: string)

  /** A decoded image: where it came from and its size in pixels. */
  datatype Image = Image(path: string, width: real, height: real)

  /** One touch point of a touch event. */
  datatype Touch = Touch(clientX: real, clientY: real)

  /** The entry built for a configured file name, served from `images/`. */
  function Entry(name: string): (p: Panorama)
    ensures p.name == name && p.path == "images/" + name
    ensures p.displayName == DisplayName(name) && '_' !in p.displayName
  {
    Panorama(name, "images/" + name, DisplayName(name))
  }

  /** `loadPanoramaList`: one entry per configured name, in order. */
  function PanoramaList(names: seq<string>): (ps: seq<Panorama>)
    ensures |ps| == |names|
    ensures forall i :: 0 <= i < |names| ==> ps[i] == Entry(names[i])
    ensures forall i :: 0 <= i < |names| ==>
      ps[i].name == names[i] && ps[i].path == "images/" + names[i] && '_' !in ps[i].displayName
  {
    seq(|names|, i requires 0 <= i < |names| => Entry(names[i]))
  }

  /**
   * A file name `base.png` whose base has no '.' or '_' is shown as its base;
   * the configured `Panorama.png`, `Panorama1.png` and `Panorama2.png` are
   * such names.
   */
  lemma PngDisplayName(name: string, base: string)
    requires '.' !in base && '_' !in base && name == base + ".png"
    ensures DisplayName(name) == base
  {
    DisplayNameStripsExtension(base, ".png");
    ReplaceAllCharAbsent(base, '_', ' ');
  }

  /**
   * `getPinchDistance`: 0 with fewer than two touches, otherwise the
   * Euclidean distance between the first two, characterised without a square
   * root as the non-negative d with d * d = dx * dx + dy * dy.
   */
  predicate IsPinchDistance(touches: seq<Touch>, d: real) {
    if |touches| < 2 then d == 0.0
    else
      var dx := touches[0].clientX - touches[1].clientX;
      var dy := touches[0].clientY - touches[1].clientY;
      d >= 0.0 && d * d == dx * dx + dy * dy
  }

  /** The pitch after a vertical drag of dy pixels at the given sensitivity: dragging down lowers pitch, moving the crop toward the image's top edge. */
  function DraggedPitch(pitch: real, dy: real, sensitivity: real): (p: real)
    ensures -90.0 <= p <= 90.0
    ensures -90.0 <= pitch - dy * sensitivity <= 90.0 ==> p == pitch - dy * sensitivity
    ensures pitch - dy * sensitivity < -90.0 ==> p == -90.0
    ensures 90.0 < pitch - dy * sensitivity ==> p == 90.0
  {
    Clamp(-90.0, 90.0, pitch - dy * sensitivity)
  }

  /** A pinch distance, like the square root it stands for, is unique: two values meeting the predicate are equal. */
  lemma PinchDistanceUnique(touches: seq<Touch>, d1: real, d2: real)
    requires IsPinchDistance(touches, d1) && IsPinchDistance(touches, d2)
    ensures d1 == d2
  {
    if 2 <= |touches| {
      if d1 < d2 {
        SquareStrict(d1, d2);
      } else if d2 < d1 {
        SquareStrict(d2, d1);
      }
    }
  }

  /** Pressing zoom-out after zoom-in restores any fov at least 10 degrees above the minimum. */
  lemma ZoomButtonsUndo(fov: real)
    requires MinFov + 10.0 <= fov <= MaxFov
    ensures Clamp(MinFov, MaxFov, Clamp(MinFov, MaxFov, fov - 10.0) + 10.0) == fov
  {
  }

  /** Spreading two fingers apart never widens the view, and pinching them together never narrows it. */
  lemma PinchDirection(fov: real, lastDistance: real, distance: real)
    requires MinFov <= fov <= MaxFov
    ensures lastDistance <= distance ==> Clamp(MinFov, MaxFov, fov + (lastDistance - distance) * 0.5) <= fov
    ensures distance <= lastDistance ==> fov <= Clamp(MinFov, MaxFov, fov + (lastDistance - distance) * 0.5)
  {
    if lastDistance <= distance {
      ClampMonotone(MinFov, MaxFov, fov + (lastDistance - distance) * 0.5, fov);
    } else {
      ClampMonotone(MinFov, MaxFov, fov, fov + (lastDistance - distance) * 0.5);
    }
  }

  class PanoramaViewer {
    var panoramas: seq<Panorama>
    var currentIndex: int
    var currentImage: Option<Image>
    /** Whether the loading indicator is visible. */
    var loadingShown: bool

    var yaw: real
    var pitch: real
    var fov: real

    var isDragging: bool
    var lastX: real
    var lastY: real

    var touches: seq<Touch>
    var lastPinchDistance: real

    /** The view is always within its clamps, and an index once chosen is in range. */
    ghost predicate Valid()
      reads this
    {
      MinFov <= fov <= MaxFov && -90.0 <= pitch <= 90.0 &&
      0 <= currentIndex && (currentIndex == 0 || currentIndex < |panoramas|) &&
      (currentImage.Some? ==> currentImage.value.width > 0.0 && currentImage.value.height > 0.0)
    }

    /** The current view as a value, as `render` reads it. */
    function CurrentView(): View
      reads this
    {
      Projection.View(yaw, pitch, fov)
    }

    /** The constructor together with `loadPanoramaList`: no image yet, home view, no gesture. */
    constructor (imageNames: seq<string>)
      ensures Valid()
      ensures panoramas == PanoramaList(imageNames)
      ensures currentIndex == 0 && currentImage == None && !loadingShown
      ensures yaw == 0.0 && pitch == 0.0 && fov == HomeFov
      ensures !isDragging && lastX == 0.0 && lastY == 0.0
      ensures touches == [] && lastPinchDistance == 0.0
    {
      panoramas := PanoramaList(imageNames);
      currentIndex := 0;
      currentImage := None;
      loadingShown := false;
      yaw, pitch, fov := 0.0, 0.0, HomeFov;
      isDragging := false;
      lastX, lastY := 0.0, 0.0;
      touches := [];
      lastPinchDistance := 0.0;
    }

    /** `zoom`: change the field of view by delta, clamped to [MinFov, MaxFov]; positive zooms out. */
    method Zoom(delta: real)
      requires Valid()
      modifies this`fov
      ensures Valid()
      ensures fov == Clamp(MinFov, MaxFov, old(fov) + delta)
      ensures MinFov <= old(fov) + delta <= MaxFov ==> fov == old(fov) + delta
    {
      fov := Max(MinFov, Min(MaxFov, fov + delta));
    }

    /** `resetView`: back to the home view, whatever the previous view. */
    method ResetView()
      requires Valid()
      modifies this`yaw, this`pitch, this`fov
      ensures Valid()
      ensures yaw == 0.0 && pitch == 0.0 && fov == HomeFov
    {
      yaw := 0.0;
      pitch := 0.0;
      fov := HomeFov;
    }

    /** The zoom-in button. */
    method OnZoomIn()
      requires Valid()
      modifies this`fov
      ensures Valid() && fov == Clamp(MinFov, MaxFov, old(fov) - 10.0)
    {
      Zoom(-10.0);
    }

    /** The zoom-out button. */
    method OnZoomOut()
      requires Valid()
      modifies this`fov
      ensures Valid() && fov == Clamp(MinFov, MaxFov, old(fov) + 10.0)
    {
      Zoom(10.0);
    }

    /** `onMouseDown`: start a drag anchored at the pointer. */
    method OnMouseDown(clientX: real, clientY: real)
      requires Valid()
      modifies this`isDragging, this`lastX, this`lastY
      ensures Valid()
      ensures isDragging && lastX == clientX && lastY == clientY
    {
      isDragging := true;
      lastX := clientX;
      lastY := clientY;
    }

    /** `onMouseMove`: while dragging, pan by the movement since the last event and re-anchor. */
    method OnMouseMove(clientX: real, clientY: real)
      requires Valid()
      modifies this`yaw, this`pitch, this`lastX, this`lastY
      ensures Valid()
      ensures !old(isDragging) ==>
        yaw == old(yaw) && pitch == old(pitch) && lastX == old(lastX) && lastY == old(lastY)
      ensures old(isDragging) ==>
        yaw == old(yaw) + (clientX - old(lastX)) * MouseSensitivity &&
        pitch == DraggedPitch(old(pitch), clientY - old(lastY), MouseSensitivity) &&
        lastX == clientX && lastY == clientY
    {
      if !isDragging {
        return;
      }
      var deltaX := clientX - lastX;
      var deltaY := clientY - lastY;
      yaw := yaw + deltaX * MouseSensitivity;
      pitch := Max(-90.0, Min(90.0, pitch - deltaY * MouseSensitivity));
      lastX := clientX;
      lastY := clientY;
    }

    /** `onMouseUp` (also bound to `mouseleave`): end the drag, nothing else. */
    method OnMouseUp()
      requires Valid()
      modifies this`isDragging
      ensures Valid() && !isDragging
    {
      isDragging := false;
    }

    /** `onWheel`: zoom by a tenth of the vertical scroll amount. */
    method OnWheel(deltaY: real)
      requires Valid()
      modifies this`fov
      ensures Valid() && fov == Clamp(MinFov, MaxFov, old(fov) + deltaY * 0.1)
    {
      Zoom(deltaY * 0.1);
    }

    /**
     * `onTouchStart`: record the touch points; one finger anchors a drag,
     * two fingers record the pinch distance.
     */
    method OnTouchStart(eventTouches: seq<Touch>, pinchDistance: real)
      requires Valid() && IsPinchDistance(eventTouches, pinchDistance)
      modifies this`touches, this`isDragging, this`lastX, this`lastY, this`lastPinchDistance
      ensures Valid() && touches == eventTouches
      ensures |eventTouches| == 1 ==>
        isDragging && lastX == eventTouches[0].clientX && lastY == eventTouches[0].clientY &&
        lastPinchDistance == old(lastPinchDistance)
      ensures |eventTouches| == 2 ==>
        lastPinchDistance == pinchDistance &&
        isDragging == old(isDragging) && lastX == old(lastX) && lastY == old(lastY)
      ensures |eventTouches| != 1 && |eventTouches| != 2 ==>
        isDragging == old(isDragging) && lastX == old(lastX) && lastY == old(lastY) &&
        lastPinchDistance == old(lastPinchDistance)
    {
      touches := eventTouches;
      if |touches| == 1 {
        isDragging := true;
        lastX := touches[0].clientX;
        lastY := touches[0].clientY;
      } else if |touches| == 2 {
        lastPinchDistance := pinchDistance;
      }
    }

    /**
     * `onTouchMove`: one finger while dragging pans like the mouse at touch
     * sensitivity; two fingers zoom by half the shrinkage of the pinch
     * distance (spreading the fingers zooms in) and store the new distance.
     */
    method OnTouchMove(eventTouches: seq<Touch>, pinchDistance: real)
      requires Valid() && IsPinchDistance(eventTouches, pinchDistance)
      modifies this`touches, this`yaw, this`pitch, this`fov, this`lastX, this`lastY, this`lastPinchDistance
      ensures Valid() && touches == eventTouches
      ensures |eventTouches| == 1 && old(isDragging) ==>
        yaw == old(yaw) + (eventTouches[0].clientX - old(lastX)) * TouchSensitivity &&
        pitch == DraggedPitch(old(pitch), eventTouches[0].clientY - old(lastY), TouchSensitivity) &&
        lastX == eventTouches[0].clientX && lastY == eventTouches[0].clientY &&
        fov == old(fov) && lastPinchDistance == old(lastPinchDistance)
      ensures |eventTouches| == 2 ==>
        fov == Clamp(MinFov, MaxFov, old(fov) + (old(lastPinchDistance) - pinchDistance) * 0.5) &&
        lastPinchDistance == pinchDistance &&
        yaw == old(yaw) && pitch == old(pitch) && lastX == old(lastX) && lastY == old(lastY)
      ensures (|eventTouches| == 1 && !old(isDragging)) || |eventTouches| == 0 || |eventTouches| > 2 ==>
        yaw == old(yaw) && pitch == old(pitch) && fov == old(fov) &&
        lastX == old(lastX) && lastY == old(lastY) && lastPinchDistance == old(lastPinchDistance)
    {
      touches := eventTouches;
      if |touches| == 1 && isDragging {
        var deltaX := touches[0].clientX - lastX;
        var deltaY := touches[0].clientY - lastY;
        yaw := yaw + deltaX * TouchSensitivity;
        pitch := Max(-90.0, Min(90.0, pitch - deltaY * TouchSensitivity));
        lastX := touches[0].clientX;
        lastY := touches[0].clientY;
      } else if |touches| == 2 {
        var currentDistance := pinchDistance;
        var delta := lastPinchDistance - currentDistance;
        Zoom(delta * 0.5);
        lastPinchDistance := currentDistance;
      }
    }

    /** `onTouchEnd`: with no finger left the drag ends; with one left the drag is re-anchored on it. */
    method OnTouchEnd(eventTouches: seq<Touch>)
      requires Valid()
      modifies this`touches, this`isDragging, this`lastX, this`lastY
      ensures Valid() && touches == eventTouches
      ensures |eventTouches| == 0 ==> !isDragging && lastX == old(lastX) && lastY == old(lastY)
      ensures |eventTouches| == 1 ==>
        isDragging == old(isDragging) && lastX == eventTouches[0].clientX && lastY == eventTouches[0].clientY
      ensures |eventTouches| >= 2 ==>
        isDragging == old(isDragging) && lastX == old(lastX) && lastY == old(lastY)
    {
      touches := eventTouches;
      if |touches| == 0 {
        isDragging := false;
      } else if |touches| == 1 {
        lastX := touches[0].clientX;
        lastY := touches[0].clientY;
      }
    }

    /**
     * `loadPanorama`, up to the start of the decode: an index out of range is
     * ignored; otherwise the loading indicator is shown and the index is
     * recorded at once, before any image arrives. The image and the view are
     * untouched until the decode completes.
     */
    method LoadPanorama(index: int) returns (started: bool)
      requires Valid()
      modifies this`loadingShown, this`currentIndex
      ensures Valid()
      ensures started <==> 0 <= index < |panoramas|
      ensures !started ==> loadingShown == old(loadingShown) && currentIndex == old(currentIndex)
      ensures started ==> loadingShown && currentIndex == index
    {
      if index < 0 || index >= |panoramas| {
        return false;
      }
      loadingShown := true;
      currentIndex := index;
      return true;
    }

    /**
     * The decode of panorama `index` succeeded with a width x height image:
     * it replaces the current image, the view goes home and the indicator hides.
     */
    method OnImageLoad(index: int, width: real, height: real)
      requires Valid() && 0 <= index < |panoramas|
      requires width > 0.0 && height > 0.0
      modifies this`currentImage, this`yaw, this`pitch, this`fov, this`loadingShown
      ensures Valid()
      ensures currentImage == Some(Image(panoramas[index].path, width, height))
      ensures yaw == 0.0 && pitch == 0.0 && fov == HomeFov
      ensures !loadingShown
    {
      currentImage := Some(Image(panoramas[index].path, width, height));
      ResetView();
      loadingShown := false;
    }

    /** The decode failed: only the indicator hides; the previous image and view stay. */
    method OnImageError(index: int)
      requires Valid() && 0 <= index < |panoramas|
      modifies this`loadingShown
      ensures Valid() && !loadingShown
    {
      loadingShown := false;
    }

    /** One frame of `render` in a width x height viewport: nothing until an image is loaded. */
    function Render(width: real, height: real): (r: seq<Draw>)
      requires Valid() && width > 0.0 && height > 0.0
      reads this
      ensures currentImage.None? <==> r == []
      ensures currentImage.Some? ==>
        r == Project(CurrentView(), currentImage.value.width, currentImage.value.height, width, height)
      ensures currentImage.Some? ==> 1 <= |r| <= 2 && r[0].dst.x == 0.0 && r[|r| - 1].dst.x + r[|r| - 1].dst.w == width
      ensures currentImage.Some? && |r| == 2 ==> r[1].dst.x == r[0].dst.x + r[0].dst.w
      ensures currentImage.Some? ==> forall i :: 0 <= i < |r| ==>
        InImage(r[i].src, currentImage.value.width, currentImage.value.height) && InViewport(r[i].dst, width, height)
    {
      match currentImage
      case None => []
      case Some(img) => Project(CurrentView(), img.width, img.height, width, height)
    }
  }

  /**
   * A session on two panoramas: the first loads and is zoomed in; switching
   * to the second fails, so the index moves on while the first image and the
   * zoomed view stay on screen; an index past the end is ignored.
   */
  method FailedSwitchKeepsView(names: seq<string>, width: real, height: real)
    requires |names| == 2 && width > 0.0 && height > 0.0
  {
    var viewer := new PanoramaViewer(names);
    var started := viewer.LoadPanorama(0);
    assert started && viewer.loadingShown;
    viewer.OnImageLoad(0, width, height);
    var shown := viewer.currentImage;
    viewer.OnZoomIn();
    assert viewer.fov == 80.0;
    started := viewer.LoadPanorama(1);
    viewer.OnImageError(1);
    assert viewer.currentIndex == 1 && viewer.currentImage == shown;
    assert viewer.fov == 80.0 && !viewer.loadingShown;
    started := viewer.LoadPanorama(2);
    assert !started && viewer.currentIndex == 1;
  }
}

=== FILE: wrappers.dfy ===
/** An optional value, used for "no image loaded yet" and "pattern not found". */
module Wrappers {
  datatype Option<+T> = None | Some(value: T)
}
